=== FILE: README.md ===
# Helpdesk ticketing backend: a Dafny model of its authorization and audit core

This project models the request handlers of a small helpdesk backend. The main part is the
ticket controller: the two ticket listings, ticket creation, and the audited edit and delete.
The smaller part is the user controller: the administrators' user listing, sign-up and login.

The model is functional. The database is an immutable `Model.Store`, which holds:
- tickets by id;
- the append-only ticket history;
- the user table in storage order;
- the role and status reference tables;
- the two auto-increment counters.

Each handler is a pure function from the store and the request to a `Reply(store', response)`.
Read-only handlers return only the response. `Http.Response` is the `{message, data}` / `{error}`
envelope with its HTTP status.

The model does not run the code it calls but cannot see. The `Auth.Env` value passed to the handlers
stands for that code:
- token verification with the shared secret, which returns the claims or the library's error message;
- password hashing and comparison;
- the email and password validators.

A token's claims are `Auth.Claims`. A claim the token lacks is `None`, which is how the model reads
JavaScript's `undefined`.

The behaviour modelled:
- **Credential check** (`Auth`). The `Authorization` header must be present. It must start with the
  exact, case-sensitive `"Bearer "` (loosely after section 2.1 of RFC 6750). The token is the second
  space-separated field. A token the verifier refuses falls into the handler's catch-all. For the
  ticket handlers that means 400 with the library's message; for the user listing it means 500.
- **Gate of edit and delete** (`Tickets.Admit`). The checks run in this order:
  1. header, which fails with 401;
  2. token, which fails with 400;
  3. ticket existence, which fails with 404;
  4. ownership, which fails with 403.

  Role id 1 (administrator) may act on every ticket. Any other role may act only on tickets whose
  owner equals the token's `userId` claim.
- **Audit**. A request that passes the gate appends one snapshot of the stored ticket to the history
  before the change. The snapshot holds the ticket's id, name, description and status, and
  `updatedBy` set to the `userId` claim.
- **Edit**. A body field that is absent leaves the stored value unchanged. Only an administrator's
  edit may change the owner. If the update names a status or an owner that does not exist, the
  database refuses it. The snapshot is already written by then, so it stays and the ticket does not
  change. This follows the two separate writes of the handler.
- **Delete**. It removes exactly the target ticket.
- **Listings**. `getAllTickets` lists every ticket and needs no token. `getTicketByUser` lists every
  ticket for an administrator, otherwise the requester's own tickets. Each listed ticket is joined
  with its status and its owner. Both listings are newest first by `createdAt`.
- **Creation**. A ticket is created only for an existing user; otherwise the handler answers 404.
  The database refuses an unknown status.
- **Users**. The user listing requires a bearer token and the administrator role. Sign-up checks the
  email first and the password second. It stores the hash of the password and returns the user
  without it. Its session token signs `{id, roleId}`. Login fails with "User not found" or "Invalid
  password". On success it signs `{userId, email, roleId}`.

`Model.Valid` is the database's integrity:
- every id lies below its auto-increment counter;
- every ticket's status and owner exist;
- every user's role exists;
- user ids are unique, and so are user emails.

Every writing handler preserves it (`Workflow.Step`, `Workflow.Run`). Three read-only handlers
require it:
- `getTicketByUser` and the user listing, because they join each row with rows of other tables;
- both ticket listings, because `Listing.Collect` enumerates the ids below `nextTicketId`, and only
  under `Valid` is every stored id among them. `getAllTickets` joins nothing; it needs `Valid` for
  this reason alone.

The handlers follow the code. There are two exceptions, the two rows under "## Findings", where
they use the corrected definition. Two consequences of the code are worth stating:
- A token the verifier refuses is not answered with 401. `jwt.verify` throws into the catch-all,
  which answers 400 in the ticket handlers and 500 in `getAllUsers`.
- The sign-up token carries only `id` and `roleId`, while the ticket handlers read `userId`. So its
  holder is refused every edit and delete unless they are an administrator
  (`Workflow.SignUpTokenRefusedByTicketGate`).

## Model

| member | source | states |
|---|---|---|
| Auth.FirstField | src/controllers/ticketController.js:142 | The field taken from the header is a space-free prefix of the text, ended by a space or by the end of the text. |
| Auth.ExtractToken | src/controllers/ticketController.js:142 | The token of a bearer header is the space-free text right after `"Bearer "`, up to the next space. |
| Auth.TokenRoundTrip | src/controllers/ticketController.js:138-142 | Any space-free token passes the prefix check when put after `"Bearer "`, and it is extracted back unchanged. |
| Auth.Authenticate | src/controllers/ticketController.js:137-145 | A missing header, or one without the exact `"Bearer "` prefix, is refused. Otherwise the verifier's answer on the extracted token decides. |
| Auth.NoUserIdNoOwnership | src/controllers/ticketController.js:155 | A requester who is not an administrator and whose token has no `userId` owns no ticket. |
| Model.FindUserById | src/controllers/ticketController.js:95-99 | The lookup by id returns a stored user with that id, or nothing when no stored user has it. |
| Model.FindUserByEmail | src/controllers/userController.js:102-108 | The lookup by email returns a stored user with that email, or nothing when no stored user has it. |
| Model.FindUserByEmailUnique | src/controllers/userController.js:102-105 | In a valid store, the email lookup finds the one user holding that email. |
| Listing.InScopeAsWritten | src/controllers/ticketController.js:51-59 | As written, the filter selects a ticket exactly when the corrected filter does, or when it is an owner filter naming no user. |
| Listing.ScopeIsOwnershipRule | src/controllers/ticketController.js:42-59 | A listing selects a ticket exactly when the requester may act on it: always for role 1, otherwise only when they own it. |
| Listing.TokenWithoutUserIdSeesAllAsWritten | src/controllers/ticketController.js:51-59 | As written, a token for a role other than 1 that has no `userId` claim selects every ticket, including tickets the requester may not act on. |
| Listing.InsertNewestElements | src/controllers/ticketController.js:52-54 | Inserting a row into a listing adds exactly that row: the result is the old rows plus the new one, as a multiset. |
| Listing.InsertNewestOrder | src/controllers/ticketController.js:52-54 | Inserting a row keeps a listing ordered by `createdAt`, newest first. |
| Listing.InsertNewestUnique | src/controllers/ticketController.js:52-54 | Inserting a row whose id is new keeps every id in the listing at most once. |
| Listing.Collect | src/controllers/ticketController.js:44-59 | It returns exactly the stored tickets in scope, each once and with its stored contents, newest first. |
| Listing.ListsInsert | src/controllers/ticketController.js:52-59 | Adding the next id's ticket, when it is in scope, to the listing of the lower ids gives the listing of the ids up to and including it. |
| Tickets.Views | src/controllers/ticketController.js:69-79 | There is one joined view per row, index by index, each carrying the row's ticket with its status and owner. |
| Tickets.ViewsListFor | src/controllers/ticketController.js:69-79 | The joined views show, newest first and each once, exactly the tickets the requester may act on. Each view carries the ticket's fields, its status's name and color, and its owner's name. |
| Tickets.GetAllTickets | src/controllers/ticketController.js:7-26 | It always answers 200 with every stored ticket, each once, newest first. The message is "No data found" exactly when there are no tickets. |
| Tickets.GetTicketByUser | src/controllers/ticketController.js:28-88 | No or malformed header gives 401, and a refused token gives 400 with the verifier's message. Otherwise it answers 200 with exactly the requester's visible tickets, joined and newest first. |
| Tickets.AdminListingMatchesGetAll | src/controllers/ticketController.js:42-50 | An administrator's listing shows the same set of tickets as `getAllTickets`, and both are newest first. Nothing is promised about the order of equal timestamps. |
| Tickets.CreateTicket | src/controllers/ticketController.js:90-130 | An unknown owner gives 404. A known owner with an unknown status gives the catch-all 400 with the database's refusal message. Every failure leaves the store unchanged. It succeeds exactly when the owner and the status exist. On success it adds one ticket, under an id not in use, holding the requested fields. Nothing else changes. |
| Tickets.Admit | src/controllers/ticketController.js:137-159 | The gate checks the header (401), then the token (400), then existence (404), then ownership (403). It lets a request through exactly when the token verifies, the ticket exists and the requester may act on it: role 1 on any ticket, anyone else on their own. |
| Tickets.EditTicket | src/controllers/ticketController.js:132-188 | A request stopped at the gate leaves the store unchanged. A request that passes appends exactly one pre-edit snapshot, with `updatedBy` set to the requester. Only the target ticket can change. The edit succeeds exactly when the fields it writes name existing rows. Otherwise, after the snapshot, the reply is the catch-all 400 with the database's refusal message. Integrity is kept. |
| Tickets.EditOwnerRule | src/controllers/ticketController.js:171-179 | A requester who is not an administrator never changes the owner. An administrator's accepted edit sets the owner named in the body. |
| Tickets.EditWritesBodyFields | src/controllers/ticketController.js:171-179 | An accepted edit writes each field present in the body and keeps each absent field, including the owner when an administrator's body has no `userId`. |
| Tickets.DeleteTicket | src/controllers/ticketController.js:190-241 | A request stopped at the gate leaves the store unchanged. Otherwise it appends exactly one snapshot of the ticket, removes only that ticket, and answers 200. |
| Tickets.DeleteRemovesOnlyTarget | src/controllers/ticketController.js:230-233 | A successful delete removes the target and keeps every other ticket unchanged. The old history stays a strict prefix of the new one. |
| Users.Public | src/controllers/userController.js:29-35 | The public view shows the user's id, name, email and role, and the role's name. |
| Users.PublicAll | src/controllers/userController.js:29-35 | The listing has one public view per user, in storage order. |
| Users.GetAllUsers | src/controllers/userController.js:9-45 | No or malformed header gives 401, a token for a role other than 1 gives 403, and a refused token gives 500. It succeeds exactly for an administrator, with one entry per user, in order, without passwords. |
| Users.CreateUser | src/controllers/userController.js:47-97 | An invalid email is refused before the password is checked. Every failure is 400, and a failure after both validators accept carries the database's refusal message. It succeeds exactly when both validators accept and the email and role are acceptable to the store. It stores one user holding the hash of the password and returns it without the password. The session claims are `{id, roleId}`, with no `userId`. |
| Users.EmailCheckedBeforePassword | src/controllers/userController.js:51-61 | An invalid email gives "Invalid Email" and the same reply whatever the password validator says. |
| Users.LoginPayload | src/controllers/userController.js:116-129 | The login payload carries the user's id, name, email and role id, the name of its role, and the token claims `{userId, email, roleId}` of that user. |
| Users.LoginPayloadAsWritten | src/controllers/userController.js:122-129 | As written, the payload is the corrected one with the role name missing. |
| Users.LoginUser | src/controllers/userController.js:99-138 | An unknown email gives "User not found", and every failure is a 400. "Invalid password" means a user with that email exists whose hash does not match. A success is a matching user's payload, with claims `{userId, email, roleId}`. |
| Users.LoginAuthenticatesAccountHolder | src/controllers/userController.js:102-120 | In a valid store, login with a user's email succeeds exactly when the password matches that user's hash. The token then names that user. |
| Users.LoginRoleNameLostAsWritten | src/controllers/userController.js:127 | After a successful login, the corrected payload carries the role's name and the as-written payload has none. |
| Users.SignUpThenLogIn | src/controllers/userController.js:64-120 | Sign-up followed by login with the same credentials succeeds, and the token names the new user and its role. |
| Workflow.Step | src/controllers/ticketController.js:161-233 | Listings and login leave the store unchanged. Every request keeps the store's integrity. It only appends to the history, at most one entry. |
| Workflow.Run | src/controllers/ticketController.js:161-233 | Any sequence of requests keeps integrity. The history only grows at its end, by at most one entry per request. |
| Workflow.AuditPrecedesChange | src/controllers/ticketController.js:161-233 | A request that changes or removes an existing ticket appends exactly one history entry: the ticket's pre-change id, name, description and status. |
| Workflow.CreatedTicketListedForOwner | src/controllers/ticketController.js:104-121 | A created ticket appears in the listing of a requester whose token names its owner, with the requested name, description, status and owner. |
| Workflow.SignUpTokenRefusedByTicketGate | src/controllers/userController.js:78-81 | A sign-up token for a role other than 1 gets 403 on every edit and delete of an existing ticket. |
| Workflow.SignUpTokenListsNothing | src/controllers/ticketController.js:51-67 | With the corrected owner filter, a sign-up token for a role other than 1 lists no ticket. |

## Findings

| source | as written | input that shows it | evidently intended | confidence | as-written member | corrected member |
|---|---|---|---|---|---|---|
| src/controllers/ticketController.js:52-59 | A requester who is not an administrator is filtered with `where: { userId }`, where `userId` is the token's claim. The database client drops a filter whose value is undefined. | A sign-up token for role 2 carries `{id, roleId}` and no `userId`. `GET /get-ticket` with it lists every ticket, including other users' tickets. | A requester who is not an administrator sees only their own tickets. A token naming no user sees none. | medium: depends on the database client dropping an undefined filter; not executed | Listing.InScopeAsWritten | Listing.ScopeIsOwnershipRule |
| src/controllers/userController.js:127 | The login payload reads `user.role.roleName`, but the role's column is `name`, as in `prisma/seed.js` and `getAllUsers`. So the value is undefined and `roleName` is missing from the response. | Any successful login. | The payload's `roleName` is the name of the user's role. | medium: the role schema is not part of this model; not executed | Users.LoginPayloadAsWritten | Users.LoginPayload |

Each as-written member is shown to differ from its correction by a lemma:
- `Listing.TokenWithoutUserIdSeesAllAsWritten`: the as-written filter selects every ticket, the
  corrected one selects none.
- `Users.LoginRoleNameLostAsWritten`: the as-written payload has no role name, the corrected one
  has it.

The handlers use the corrected definitions. `Workflow.SignUpTokenListsNothing` states the corrected
listing's behaviour at the handler level.

## Left out

- Database I/O is replaced by the in-memory `Model.Store`. The crash window between the history
  insert and the ticket write is not modelled, since each handler is one atomic step of the model.
- The database schema is not part of this model. Several things are assumed from it:
  - foreign keys from a ticket to its status and owner, and from a user to its role;
  - a unique user email;
  - an `updatedAt` column that is set on update;
  - a history `ticketId` that is a plain column, so deleting an audited ticket is not refused;
  - a nullable history `updatedBy`. A token without a `userId` claim can pass the gate: sign-up
    takes `roleId` from the request body and signs `{id, roleId}`, so a role-1 sign-up token has no
    `userId`. The handler then writes `updatedBy: undefined`, and the model records it as `None`. If
    the column were not nullable, the database would refuse the snapshot: the request would answer
    400 and nothing would be written. The model does not cover that case.
- The texts of the database's refusals are not modelled. One constant,
  `Model.StoreRejectedMessage`, stands for all of them. The model does not choose which of two
  violated constraints is reported.
- An auto-increment value consumed by a refused insert is not modelled: a refused insert leaves the
  counter unchanged.
- Token signing, verification and expiry are not modelled; the verifier is the abstract
  `Env.verify`. A signed token is represented by the claims it carries. The one-hour expiry and
  the `iat`/`exp` claims are not modelled.
- Password hashing and comparison are the abstract `Env.hash` and `Env.compare`. The hash's random
  salt and cost factor are folded into `Env.hash`.
- The email and password validators are the abstract `Env.validEmail` and `Env.validPassword`. The
  validator module is not part of this model, so the password policy appears only in the error text.
- Cookies are HTTP plumbing and are not modelled: the session cookie set by `createUser` and the
  whole of `logoutUser`, which only clears it.
- The generic catch-all branches are not modelled beyond the token refusal and the constraint
  refusals above:
  - a missing body field, for example an undefined `userId` in `createTicket`;
  - a non-numeric `:id`;
  - a database outage;
  - claims of unexpected types, such as a string `roleId`.

  The model takes every request field as present and well-typed.
- `editTicket` returns its ticket under the key `ticket` rather than `data`. The envelope
  distinction is not modelled.
- `Users.CreateUser` returns the new user in the listing's shape (`PublicUser`, with `userId` and
  `roleName`). The handler returns the stored row minus the password, with `id`, `roleId` and a
  nested `role` record. The model keeps only the fields that row has, renamed.
- The `console.error` logging in `getAllUsers`' catch-all is not modelled.
- The order of tickets with equal `createdAt` is not promised by the database. The model puts the
  higher id first, and no contract states anything about it.
- Timestamps are the caller-supplied `now`, in place of the database clock.
- Routing and server wiring are not modelled (`src/index.js`, `src/routes/ticketRoutes.js`,
  `src/routes/userRoutes.js`). Neither is the reference-data seed (`prisma/seed.js`), which holds no
  logic.

=== FILE: auth.dfy ===
/**
  The credential check the protected handlers share: the `Authorization` header must start with
  the exact, case-sensitive prefix "Bearer " (loosely after section 2.1 of RFC 6750); the token is
  the second space-separated field of the header; the token's signature is checked by an abstract
  verifier. Role id 1 is the administrator role.
 */
module Auth {
  import opened Basics

  /** The claims of a verified token the handlers read. An absent claim is `None`. */
  datatype Claims = Claims(userId: Option<int>, id: Option<int>, email: Option<string>, roleId: Option<int>)

  /**
    The functions the handlers call whose code is not part of this model:
    token verification with the shared secret (claims, or the library's error message),
    password hashing and comparison, and the email and password validators.
   */
  datatype Env = Env(
    verify: string -> Result<Claims>,
    hash: string -> string,
    compare: (string, string) -> bool,
    validEmail: string -> bool,
    validPassword: string -> bool)

  const AdminRole := 1
  const BearerPrefix := "Bearer "
  const NoTokenMessage := "No token provided"

  predicate HasBearerPrefix(header: string) {
    |BearerPrefix| <= |header| && header[..|BearerPrefix|] == BearerPrefix
  }

  /** The characters of `s` before its first space: element 0 of `s.split(" ")`. */
  function FirstField(s: string): (f: string)
    ensures f <= s
    ensures ' ' !in f
    ensures |f| < |s| ==> s[|f|] == ' '
  {
    if s == [] || s[0] == ' ' then [] else [s[0]] + FirstField(s[1..])
  }

  /**
    The token of a bearer header: element 1 of `header.split(" ")`. The prefix ends in the
    header's first space, so that element is the first field of what follows the prefix.
   */
  function ExtractToken(header: string): (token: string)
    requires HasBearerPrefix(header)
    ensures BearerPrefix + token <= header
    ensures ' ' !in token
    ensures |BearerPrefix + token| < |header| ==> header[|BearerPrefix + token|] == ' '
  {
    var rest := header[|BearerPrefix|..];
    assert header == BearerPrefix + rest;
    FirstField(rest)
  }

  /** A string without spaces is its own first field. */
  lemma {:induction false} FirstFieldOfSpaceless(s: string)
    requires ' ' !in s
    ensures FirstField(s) == s
  {
    if s != [] {
      assert s[0] in s;
      assert ' ' !in s[1..] by {
        forall k | 0 <= k < |s[1..]| ensures s[1..][k] != ' ' {
          assert s[1..][k] == s[k + 1];
        }
      }
      FirstFieldOfSpaceless(s[1..]);
      assert s == [s[0]] + s[1..];
    }
  }

  /** A token without spaces survives being put in a bearer header and extracted again. */
  lemma TokenRoundTrip(token: string)
    requires ' ' !in token
    ensures HasBearerPrefix(BearerPrefix + token)
    ensures ExtractToken(BearerPrefix + token) == token
  {
    var header := BearerPrefix + token;
    assert header[..|BearerPrefix|] == BearerPrefix;
    assert header[|BearerPrefix|..] == token;
    FirstFieldOfSpaceless(token);
  }

  /** What the header check and token verification yield, before any handler-specific check. */
  datatype Authentication = Missing | Rejected(reason: string) | Verified(claims: Claims)

  function Authenticate(env: Env, header: Option<string>): (a: Authentication)
    ensures a.Missing? <==> header.None? || !HasBearerPrefix(header.value)
    ensures a.Rejected? ==> env.verify(ExtractToken(header.value)) == Err(a.reason)
    ensures a.Verified? ==> env.verify(ExtractToken(header.value)) == Ok(a.claims)
  {
    if header.None? || !HasBearerPrefix(header.value) then Missing
    else
      match env.verify(ExtractToken(header.value))
      case Err(reason) => Rejected(reason)
      case Ok(claims) => Verified(claims)
  }

  predicate IsAdmin(c: Claims) {
    c.roleId == Some(AdminRole)
  }

  /** The ownership rule: an administrator may act on any ticket, anyone else only on their own. */
  predicate MayAct(c: Claims, owner: int) {
    IsAdmin(c) || c.userId == Some(owner)
  }

  /** A requester who is not an administrator and whose token names no user may act on nothing. */
  lemma NoUserIdNoOwnership(c: Claims, owner: int)
    requires !IsAdmin(c) && c.userId.None?
    ensures !MayAct(c, owner)
  {
  }
}

=== FILE: basics.dfy ===
/** Small value types shared by every module of the model. */
module Basics {

  /** A value that may be absent: the model's reading of JavaScript's `undefined`. */
  datatype Option<+T> = None | Some(value: T) {

    /** The carried value, or `default` when absent. */
    function GetOr(default: T): T {
      match this
      case Some(v) => v
      case None => default
    }
  }

  /** The outcome of a call into a library that either answers or throws with a message. */
  datatype Result<+T> = Ok(value: T) | Err(reason: string)
}

/** The response envelope every handler produces: `{message, data}` on success, `{error}` on failure. */
module Http {

  const StatusOk := 200
  const StatusCreated := 201
  const StatusBadRequest := 400
  const StatusUnauthorized := 401
  const StatusForbidden := 403
  const StatusNotFound := 404
  const StatusServerError := 500

  datatype Response<+T> =
    | Success(code: int, message: string, data: T)
    | Failure(code: int, error: string)
}

=== FILE: listing.dfy ===
/**
  The ticket listings: the tickets a requester may see, newest first. The database sorts on
  `createdAt` descending and promises nothing about the order of equal timestamps; the model
  puts the higher id first among equals.
 */
module Listing {
  import opened Basics
  import opened Auth
  import opened Model

  datatype Row = Row(id: int, ticket: Ticket)

  /** Which tickets a listing selects: all of them, or those whose owner is the given user. */
  datatype Scope = Everything | OwnedBy(owner: Option<int>)

  /** The scope of a requester: everything for an administrator, else the tickets they own. */
  function ScopeFor(c: Claims): Scope {
    if IsAdmin(c) then Everything else OwnedBy(c.userId)
  }

  /** Selection by scope. An owner filter naming no user selects no ticket. */
  predicate InScope(scope: Scope, t: Ticket) {
    match scope
    case Everything => true
    case OwnedBy(owner) => owner == Some(t.userId)
  }

  /**
    Selection as the handler writes it: the owner filter is passed to the database as
    `where: { userId }`, and the database client drops a filter whose value is undefined, so an
    owner filter naming no user selects every ticket.
   */
  predicate InScopeAsWritten(scope: Scope, t: Ticket): (selected: bool)
    ensures selected <==> InScope(scope, t) || scope == OwnedBy(None)
  {
    match scope
    case Everything => true
    case OwnedBy(owner) => owner.None? || owner == Some(t.userId)
  }

  /** A listing sees exactly the tickets its requester may act on. */
  lemma ScopeIsOwnershipRule(c: Claims, t: Ticket)
    ensures InScope(ScopeFor(c), t) <==> MayAct(c, t.userId)
  {
  }

  /**
    A requester who is not an administrator and whose token names no user (a sign-up token)
    sees every ticket as written, including one owned by somebody else, and none once corrected.
   */
  lemma {:induction false} TokenWithoutUserIdSeesAllAsWritten(c: Claims, t: Ticket)
    requires !IsAdmin(c) && c.userId.None?
    ensures InScopeAsWritten(ScopeFor(c), t)
    ensures !InScope(ScopeFor(c), t)
    ensures !MayAct(c, t.userId)
  {
    NoUserIdNoOwnership(c, t.userId);
  }

  ghost predicate NewestFirst(rows: seq<Row>) {
    forall i, j :: 0 <= i < j < |rows| ==> rows[i].ticket.createdAt >= rows[j].ticket.createdAt
  }

  ghost predicate UniqueIds(rows: seq<Row>) {
    forall i, j :: 0 <= i < j < |rows| ==> rows[i].id != rows[j].id
  }

  /** The first row of a newest-first listing is at least as new as every row. */
  lemma HeadIsNewest(rows: seq<Row>)
    requires NewestFirst(rows) && rows != []
    ensures forall x :: x in rows ==> x.ticket.createdAt <= rows[0].ticket.createdAt
  {
    forall x | x in rows ensures x.ticket.createdAt <= rows[0].ticket.createdAt {
      var k :| 0 <= k < |rows| && rows[k] == x;
      if k > 0 {
        assert rows[0].ticket.createdAt >= rows[k].ticket.createdAt;
      }
    }
  }

  lemma ConsNewestFirst(h: Row, rest: seq<Row>)
    requires NewestFirst(rest)
    requires forall x :: x in rest ==> x.ticket.createdAt <= h.ticket.createdAt
    ensures NewestFirst([h] + rest)
  {
    var out := [h] + rest;
    forall i, j | 0 <= i < j < |out| ensures out[i].ticket.createdAt >= out[j].ticket.createdAt {
      assert out[j] == rest[j - 1];
      if i > 0 {
        assert out[i] == rest[i - 1];
      } else {
        assert rest[j - 1] in rest;
      }
    }
  }

  lemma ConsUniqueIds(h: Row, rest: seq<Row>)
    ensures UniqueIds(rest) && (forall x :: x in rest ==> x.id != h.id) ==> UniqueIds([h] + rest)
  {
    if UniqueIds(rest) && (forall x :: x in rest ==> x.id != h.id) {
      var out := [h] + rest;
      forall i, j | 0 <= i < j < |out| ensures out[i].id != out[j].id {
        assert out[j] == rest[j - 1];
        if i > 0 {
          assert out[i] == rest[i - 1];
        } else {
          assert rest[j - 1] in rest;
        }
      }
    }
  }

  /** Insertion of one row into a newest-first listing, in front of the first row no newer than it. */
  function InsertNewest(r: Row, rows: seq<Row>): seq<Row> {
    if rows == [] || rows[0].ticket.createdAt <= r.ticket.createdAt then [r] + rows
    else [rows[0]] + InsertNewest(r, rows[1..])
  }

  /** Insertion adds exactly the one row. */
  lemma {:induction false} InsertNewestElements(r: Row, rows: seq<Row>)
    ensures multiset(InsertNewest(r, rows)) == multiset(rows) + multiset{r}
    ensures |InsertNewest(r, rows)| == |rows| + 1
  {
    if !(rows == [] || rows[0].ticket.createdAt <= r.ticket.createdAt) {
      InsertNewestElements(r, rows[1..]);
      assert rows == [rows[0]] + rows[1..];
    }
  }

  /** Insertion keeps a listing newest first. */
  lemma {:induction false} InsertNewestOrder(r: Row, rows: seq<Row>)
    requires NewestFirst(rows)
    ensures NewestFirst(InsertNewest(r, rows))
  {
    if rows == [] || rows[0].ticket.createdAt <= r.ticket.createdAt {
      assert forall x :: x in rows ==> x.ticket.createdAt <= r.ticket.createdAt by {
        if rows != [] { HeadIsNewest(rows); }
      }
      ConsNewestFirst(r, rows);
    } else {
      var rest := rows[1..];
      assert rows == [rows[0]] + rest;
      InsertNewestOrder(r, rest);
      InsertNewestElements(r, rest);
      var tail := InsertNewest(r, rest);
      HeadIsNewest(rows);
      assert forall x :: x in tail ==> x.ticket.createdAt <= rows[0].ticket.createdAt by {
        forall x | x in tail ensures x.ticket.createdAt <= rows[0].ticket.createdAt {
          assert x in multiset(tail);
          assert x == r || x in rest;
        }
      }
      ConsNewestFirst(rows[0], tail);
    }
  }

  /** Insertion of a row whose id is new keeps ids unique. */
  lemma {:induction false} InsertNewestUnique(r: Row, rows: seq<Row>)
    requires UniqueIds(rows)
    requires forall x :: x in rows ==> x.id != r.id
    ensures UniqueIds(InsertNewest(r, rows))
  {
    if rows == [] || rows[0].ticket.createdAt <= r.ticket.createdAt {
      ConsUniqueIds(r, rows);
    } else {
      var rest := rows[1..];
      assert rows == [rows[0]] + rest;
      InsertNewestUnique(r, rest);
      InsertNewestElements(r, rest);
      var tail := InsertNewest(r, rest);
      assert forall x :: x in tail ==> x.id != rows[0].id by {
        forall x | x in tail ensures x.id != rows[0].id {
          assert x in multiset(tail);
          if x != r {
            var k :| 0 <= k < |rest| && rest[k] == x;
            assert rows[k + 1] == x;
          }
        }
      }
      ConsUniqueIds(rows[0], tail);
    }
  }

  /**
    `rows` lists, newest first and each once, exactly the tickets with id in [1, n) that lie in
    `scope`, each with its stored contents.
   */
  ghost predicate Lists(tickets: map<int, Ticket>, scope: Scope, n: int, rows: seq<Row>) {
    && NewestFirst(rows)
    && UniqueIds(rows)
    && (forall r :: r in rows ==>
          1 <= r.id < n && r.id in tickets && r.ticket == tickets[r.id] && InScope(scope, r.ticket))
    && (forall id :: id in tickets && 1 <= id < n && InScope(scope, tickets[id]) ==>
          Row(id, tickets[id]) in rows)
  }

  /** The rows of the tickets with id in [1, n) that lie in `scope`, newest first. */
  function Collect(tickets: map<int, Ticket>, scope: Scope, n: int): (rows: seq<Row>)
    decreases n
    ensures Lists(tickets, scope, n, rows)
  {
    if n <= 1 then []
    else
      var rest := Collect(tickets, scope, n - 1);
      if n - 1 in tickets && InScope(scope, tickets[n - 1]) then
        ListsInsert(tickets, scope, n, rest);
        InsertNewest(Row(n - 1, tickets[n - 1]), rest)
      else
        assert forall id :: id in tickets && 1 <= id < n && InScope(scope, tickets[id]) ==> id < n - 1;
        rest
  }

  /** Adding the ticket with id n - 1 to a listing of the ids below it lists the ids below n. */
  lemma ListsInsert(tickets: map<int, Ticket>, scope: Scope, n: int, rest: seq<Row>)
    requires Lists(tickets, scope, n - 1, rest)
    requires 1 < n && n - 1 in tickets && InScope(scope, tickets[n - 1])
    ensures Lists(tickets, scope, n, InsertNewest(Row(n - 1, tickets[n - 1]), rest))
  {
    var row := Row(n - 1, tickets[n - 1]);
    InsertNewestElements(row, rest);
    InsertNewestOrder(row, rest);
    InsertNewestUnique(row, rest);
    var rows := InsertNewest(row, rest);
    forall x ensures x in rows <==> x == row || x in rest {
      assert x in rows <==> x in multiset(rows);
    }
    assert NewestFirst(rows);
    assert UniqueIds(rows);
    forall r | r in rows
      ensures 1 <= r.id < n && r.id in tickets && r.ticket == tickets[r.id] && InScope(scope, r.ticket)
    {
    }
    forall id | id in tickets && 1 <= id < n && InScope(scope, tickets[id])
      ensures Row(id, tickets[id]) in rows
    {
      if id < n - 1 {
        assert Row(id, tickets[id]) in rest;
      }
    }
  }
}

=== FILE: model.dfy ===
/**
  The persisted state the handlers read and write, in place of the relational database:
  tickets by id, the append-only ticket history, the user table in storage order, and the
  static role and status reference tables.
 */
module Model {
  import opened Basics
  import opened Http

  datatype Ticket = Ticket(
    name: string, description: string, statusId: int, userId: int, createdAt: int, updatedAt: int)

  /** One audit row: the ticket's state before an edit or delete, and who made the change. */
  datatype HistoryEntry = HistoryEntry(
    ticketId: int, name: string, description: string, statusId: int, updatedBy: Option<int>, createdAt: int)

  datatype User = User(id: int, name: string, email: string, password: string, roleId: int)

  datatype Status = Status(name: string, color: string)

  datatype Store = Store(
    tickets: map<int, Ticket>,
    nextTicketId: int,
    history: seq<HistoryEntry>,
    users: seq<User>,
    nextUserId: int,
    roles: map<int, string>,
    statuses: map<int, Status>)

  /** A handler's effect: the store after the request, and the response sent. */
  datatype Reply<+T> = Reply(store: Store, response: Response<T>)

  /** Stands for the database client's message when it refuses a write (a missing referenced row, a duplicate email). */
  const StoreRejectedMessage := "Database constraint violated"

  /** The audit row recording ticket `id` as it is before a change requested by `actor` at time `now`. */
  function Snapshot(id: int, t: Ticket, actor: Option<int>, now: int): HistoryEntry {
    HistoryEntry(id, t.name, t.description, t.statusId, actor, now)
  }

  /** Lookup of a user by primary key. */
  function FindUserById(users: seq<User>, id: int): (r: Option<User>)
    ensures r.Some? ==> r.value in users && r.value.id == id
    ensures r.None? ==> forall u :: u in users ==> u.id != id
  {
    if users == [] then None
    else if users[0].id == id then Some(users[0])
    else FindUserById(users[1..], id)
  }

  /** Lookup of a user by the unique email column. */
  function FindUserByEmail(users: seq<User>, email: string): (r: Option<User>)
    ensures r.Some? ==> r.value in users && r.value.email == email
    ensures r.None? ==> forall u :: u in users ==> u.email != email
  {
    if users == [] then None
    else if users[0].email == email then Some(users[0])
    else FindUserByEmail(users[1..], email)
  }

  predicate HasUser(s: Store, id: int) {
    FindUserById(s.users, id).Some?
  }

  /** The references a ticket row holds point at existing rows. */
  predicate TicketRefsExist(s: Store, t: Ticket) {
    t.statusId in s.statuses && HasUser(s, t.userId)
  }

  /**
    The database's integrity: ids handed out by the auto-increment counters lie below them,
    foreign keys resolve, and user ids and emails are unique.
   */
  ghost predicate Valid(s: Store) {
    && 1 <= s.nextTicketId && 1 <= s.nextUserId
    && (forall id :: id in s.tickets ==> 1 <= id < s.nextTicketId && TicketRefsExist(s, s.tickets[id]))
    && (forall i :: 0 <= i < |s.users| ==> 1 <= s.users[i].id < s.nextUserId && s.users[i].roleId in s.roles)
    && (forall i, j :: 0 <= i < j < |s.users| ==>
          s.users[i].id != s.users[j].id && s.users[i].email != s.users[j].email)
  }

  /** In a valid store the email lookup finds the one user with that email, wherever it sits. */
  lemma FindUserByEmailUnique(s: Store, k: int)
    requires Valid(s) && 0 <= k < |s.users|
    ensures FindUserByEmail(s.users, s.users[k].email) == Some(s.users[k])
  {
    var r := FindUserByEmail(s.users, s.users[k].email);
    assert s.users[k] in s.users;
    var j :| 0 <= j < |s.users| && s.users[j] == r.value;
    assert j == k;
  }
}

=== FILE: tickets.dfy ===
/**
  The ticket handlers: the two listings, creation, and the audited edit and delete. Edit and
  delete share one gate: the bearer header, then the token's verification, then the ticket's
  existence, then the ownership rule.
  A request that passes the gate appends one snapshot of the ticket to the history before the
  ticket is changed or removed.
 */
module Tickets {
  import opened Basics
  import opened Http
  import opened Auth
  import opened Model
  import opened Listing

  const NoDataMessage := "No data found"
  const ListedMessage := "Success"
  const OwnerNotFoundMessage := "User not found"
  const TicketNotFoundMessage := "Ticket not found"
  const CreatedMessage := "Ticket created successfully"
  const UpdatedMessage := "Ticket updated successfully"
  const DeletedMessage := "Ticket deleted successfully"

  /* ---------------------------------------------------------------- listings */

  /** A ticket joined with its status and owner, as a requester's listing shows it. */
  datatype TicketView = TicketView(
    ticketId: int, name: string, description: string, statusId: int, statusName: string,
    statusColor: string, userId: int, userName: string, createdAt: int)

  function View(s: Store, r: Row): TicketView
    requires TicketRefsExist(s, r.ticket)
  {
    var t := r.ticket;
    var status := s.statuses[t.statusId];
    TicketView(r.id, t.name, t.description, t.statusId, status.name, status.color,
               t.userId, FindUserById(s.users, t.userId).value.name, t.createdAt)
  }

  function Views(s: Store, rows: seq<Row>): (vs: seq<TicketView>)
    requires forall r :: r in rows ==> TicketRefsExist(s, r.ticket)
    ensures |vs| == |rows|
    ensures forall i :: 0 <= i < |rows| ==> vs[i] == View(s, rows[i])
  {
    if rows == [] then [] else [View(s, rows[0])] + Views(s, rows[1..])
  }

  /** `v` shows the stored ticket it names, with that ticket's status and owner. */
  ghost predicate Describes(s: Store, v: TicketView) {
    && v.ticketId in s.tickets
    && var t := s.tickets[v.ticketId];
    && v.name == t.name && v.description == t.description && v.statusId == t.statusId
    && v.userId == t.userId && v.createdAt == t.createdAt
    && t.statusId in s.statuses
    && v.statusName == s.statuses[t.statusId].name && v.statusColor == s.statuses[t.statusId].color
    && FindUserById(s.users, t.userId).Some? && v.userName == FindUserById(s.users, t.userId).value.name
  }

  function TicketIds(vs: seq<TicketView>): set<int> {
    set v | v in vs :: v.ticketId
  }

  /**
    `vs` shows, newest first and each once, exactly the stored tickets the requester with
    claims `c` may act on.
   */
  ghost predicate ListsFor(s: Store, c: Claims, vs: seq<TicketView>) {
    && (forall i, j :: 0 <= i < j < |vs| ==> vs[i].createdAt >= vs[j].createdAt && vs[i].ticketId != vs[j].ticketId)
    && (forall v :: v in vs ==> Describes(s, v) && MayAct(c, v.userId))
    && TicketIds(vs) == (set id | id in s.tickets && MayAct(c, s.tickets[id].userId))
  }

  lemma ViewsListFor(s: Store, c: Claims, rows: seq<Row>)
    requires Valid(s)
    requires Lists(s.tickets, ScopeFor(c), s.nextTicketId, rows)
    ensures forall r :: r in rows ==> TicketRefsExist(s, r.ticket)
    ensures ListsFor(s, c, Views(s, rows))
  {
    var vs := Views(s, rows);
    forall v | v in vs ensures Describes(s, v) && MayAct(c, v.userId) {
      var k :| 0 <= k < |vs| && vs[k] == v;
      assert rows[k] in rows;
      ScopeIsOwnershipRule(c, rows[k].ticket);
    }
    forall id | id in s.tickets && MayAct(c, s.tickets[id].userId) ensures id in TicketIds(vs) {
      ScopeIsOwnershipRule(c, s.tickets[id]);
      var k :| 0 <= k < |rows| && rows[k] == Row(id, s.tickets[id]);
      assert vs[k] in vs;
    }
    forall i, j | 0 <= i < j < |vs|
      ensures vs[i].createdAt >= vs[j].createdAt && vs[i].ticketId != vs[j].ticketId
    {
      assert vs[i] == View(s, rows[i]) && vs[j] == View(s, rows[j]);
    }
  }

  /** `getAllTickets`: every ticket, newest first, with no credential check. */
  function GetAllTickets(s: Store): (r: Response<seq<Row>>)
    requires Valid(s)
    ensures r.Success? && r.code == StatusOk
    ensures r.message == NoDataMessage <==> r.data == []
    ensures NewestFirst(r.data) && UniqueIds(r.data)
    ensures forall row :: row in r.data ==> row.id in s.tickets && row.ticket == s.tickets[row.id]
    ensures forall id :: id in s.tickets ==> Row(id, s.tickets[id]) in r.data
  {
    var rows := Collect(s.tickets, Everything, s.nextTicketId);
    if rows == [] then Success(StatusOk, NoDataMessage, []) else Success(StatusOk, ListedMessage, rows)
  }

  /** `getTicketByUser`: the requester's tickets (all of them for an administrator), newest first. */
  function GetTicketByUser(s: Store, env: Env, header: Option<string>): (r: Response<seq<TicketView>>)
    requires Valid(s)
    ensures Authenticate(env, header).Missing? ==> r == Failure(StatusUnauthorized, NoTokenMessage)
    ensures Authenticate(env, header).Rejected? ==> r == Failure(StatusBadRequest, Authenticate(env, header).reason)
    ensures Authenticate(env, header).Verified? ==>
      && r.Success? && r.code == StatusOk
      && (r.message == NoDataMessage <==> r.data == [])
      && ListsFor(s, Authenticate(env, header).claims, r.data)
  {
    match Authenticate(env, header)
    case Missing => Failure(StatusUnauthorized, NoTokenMessage)
    case Rejected(reason) => Failure(StatusBadRequest, reason)
    case Verified(c) =>
      var rows := Collect(s.tickets, ScopeFor(c), s.nextTicketId);
      ViewsListFor(s, c, rows);
      if rows == [] then Success(StatusOk, NoDataMessage, [])
      else Success(StatusOk, ListedMessage, Views(s, rows))
  }

  /**
    An administrator's listing shows the same tickets as `getAllTickets`, both newest first.
    The two database queries promise nothing about equal timestamps, so neither does this.
   */
  lemma AdminListingMatchesGetAll(s: Store, env: Env, header: Option<string>)
    requires Valid(s)
    requires Authenticate(env, header).Verified? && IsAdmin(Authenticate(env, header).claims)
    ensures TicketIds(GetTicketByUser(s, env, header).data) == (set r | r in GetAllTickets(s).data :: r.id)
    ensures NewestFirst(GetAllTickets(s).data)
    ensures forall i, j :: 0 <= i < j < |GetTicketByUser(s, env, header).data| ==>
      GetTicketByUser(s, env, header).data[i].createdAt >= GetTicketByUser(s, env, header).data[j].createdAt
  {
  }

  /* ---------------------------------------------------------------- creation */

  datatype TicketInput = TicketInput(name: string, description: string, statusId: int, userId: int)

  /** `t` holds what the creation request asked for. */
  predicate Carries(t: Ticket, input: TicketInput) {
    t.name == input.name && t.description == input.description
    && t.statusId == input.statusId && t.userId == input.userId
  }

  /** Only the ticket table and its id counter differ between the two stores. */
  predicate OnlyTickets(s: Store, s': Store) {
    s' == s.(tickets := s'.tickets, nextTicketId := s'.nextTicketId)
  }

  /**
    `createTicket`: the owner must exist (404 otherwise); the database then refuses an unknown
    status (400); otherwise a ticket with a fresh id is added.
   */
  function CreateTicket(s: Store, input: TicketInput, now: int): (out: Reply<Row>)
    ensures !HasUser(s, input.userId) ==> out == Reply(s, Failure(StatusNotFound, OwnerNotFoundMessage))
    ensures out.response.Success? <==> HasUser(s, input.userId) && input.statusId in s.statuses
    ensures HasUser(s, input.userId) && input.statusId !in s.statuses ==>
      out.response == Failure(StatusBadRequest, StoreRejectedMessage)
    ensures out.response.Failure? ==> out.store == s
    ensures out.response.Success? ==>
      && out.response.code == StatusCreated
      && Carries(out.response.data.ticket, input) && out.response.data.ticket.createdAt == now
      && out.store.tickets == s.tickets[out.response.data.id := out.response.data.ticket]
      && OnlyTickets(s, out.store)
    ensures Valid(s) && out.response.Success? ==> out.response.data.id !in s.tickets
    ensures Valid(s) ==> Valid(out.store)
  {
    if !HasUser(s, input.userId) then Reply(s, Failure(StatusNotFound, OwnerNotFoundMessage))
    else if input.statusId !in s.statuses then Reply(s, Failure(StatusBadRequest, StoreRejectedMessage))
    else
      var id := s.nextTicketId;
      var t := Ticket(input.name, input.description, input.statusId, input.userId, now, now);
      Reply(s.(tickets := s.tickets[id := t], nextTicketId := id + 1),
            Success(StatusCreated, CreatedMessage, Row(id, t)))
  }

  /* ---------------------------------------------------------------- edit and delete */

  datatype Op = Edit | Delete

  function ForbiddenMessage(op: Op): string {
    match op
    case Edit => "Unauthorized. You can only edit your own ticket"
    case Delete => "Unauthorized. You can only delete your own ticket"
  }

  /** The gate's verdict: stop with a status and message, or go on with the claims and the stored ticket. */
  datatype Gate = Halt(code: int, error: string) | Pass(claims: Claims, ticket: Ticket)

  /** The checks edit and delete run, in the handler's order: header, token, existence, ownership. */
  function Admit(s: Store, env: Env, header: Option<string>, id: int, op: Op): (g: Gate)
    ensures Authenticate(env, header).Missing? ==> g == Halt(StatusUnauthorized, NoTokenMessage)
    ensures Authenticate(env, header).Rejected? ==> g == Halt(StatusBadRequest, Authenticate(env, header).reason)
    ensures Authenticate(env, header).Verified? && id !in s.tickets ==> g == Halt(StatusNotFound, TicketNotFoundMessage)
    ensures Authenticate(env, header).Verified? && id in s.tickets
              && !MayAct(Authenticate(env, header).claims, s.tickets[id].userId) ==>
              g == Halt(StatusForbidden, ForbiddenMessage(op))
    ensures g.Pass? <==>
      && Authenticate(env, header).Verified? && id in s.tickets
      && MayAct(Authenticate(env, header).claims, s.tickets[id].userId)
    ensures g.Pass? ==>
      && Authenticate(env, header) == Verified(g.claims)
      && id in s.tickets && g.ticket == s.tickets[id] && MayAct(g.claims, g.ticket.userId)
  {
    match Authenticate(env, header)
    case Missing => Halt(StatusUnauthorized, NoTokenMessage)
    case Rejected(reason) => Halt(StatusBadRequest, reason)
    case Verified(c) =>
      if id !in s.tickets then Halt(StatusNotFound, TicketNotFoundMessage)
      else if !MayAct(c, s.tickets[id].userId) then Halt(StatusForbidden, ForbiddenMessage(op))
      else Pass(c, s.tickets[id])
  }

  /** The body of an edit request; an absent field leaves the stored value as it is. */
  datatype EditBody = EditBody(name: Option<string>, description: Option<string>, statusId: Option<int>, userId: Option<int>)

  /** The ticket after an edit; the owner is taken from the body only for an administrator. */
  function Patch(t: Ticket, body: EditBody, admin: bool, now: int): Ticket {
    t.(name := body.name.GetOr(t.name),
       description := body.description.GetOr(t.description),
       statusId := body.statusId.GetOr(t.statusId),
       userId := if admin then body.userId.GetOr(t.userId) else t.userId,
       updatedAt := now)
  }

  /** The rows an edit writes references to exist, so the database accepts the update. */
  predicate PatchRefsExist(s: Store, body: EditBody, admin: bool) {
    && (body.statusId.Some? ==> body.statusId.value in s.statuses)
    && (admin && body.userId.Some? ==> HasUser(s, body.userId.value))
  }

  /** Only the ticket table and the history differ between the two stores. */
  predicate OnlyTicketsAndHistory(s: Store, s': Store) {
    s' == s.(tickets := s'.tickets, history := s'.history)
  }

  /**
    `editTicket`: past the gate, a snapshot of the stored ticket is appended to the history; then
    the update is applied, or refused by the database when it names a status or owner that does
    not exist, in which case the snapshot stays and the ticket does not change.
   */
  function EditTicket(s: Store, env: Env, header: Option<string>, id: int, body: EditBody, now: int): (out: Reply<Row>)
    ensures Admit(s, env, header, id, Edit).Halt? ==>
      out == Reply(s, Failure(Admit(s, env, header, id, Edit).code, Admit(s, env, header, id, Edit).error))
    ensures Admit(s, env, header, id, Edit).Pass? ==>
      out.store.history == s.history + [Snapshot(id, s.tickets[id], Admit(s, env, header, id, Edit).claims.userId, now)]
    ensures OnlyTicketsAndHistory(s, out.store)
    ensures out.store.tickets.Keys == s.tickets.Keys
    ensures forall k :: k in s.tickets && k != id ==> out.store.tickets[k] == s.tickets[k]
    ensures out.response.Success? <==>
      Admit(s, env, header, id, Edit).Pass? && PatchRefsExist(s, body, IsAdmin(Admit(s, env, header, id, Edit).claims))
    ensures out.response.Failure? ==> out.store.tickets == s.tickets
    ensures Admit(s, env, header, id, Edit).Pass? && !PatchRefsExist(s, body, IsAdmin(Admit(s, env, header, id, Edit).claims)) ==>
      out.response == Failure(StatusBadRequest, StoreRejectedMessage)
    ensures out.response.Success? ==>
      && out.response.code == StatusOk
      && out.response.data == Row(id, out.store.tickets[id])
      && out.store.tickets[id].createdAt == s.tickets[id].createdAt
    ensures Valid(s) ==> Valid(out.store)
  {
    match Admit(s, env, header, id, Edit)
    case Halt(code, error) => Reply(s, Failure(code, error))
    case Pass(c, t) =>
      var audited := s.(history := s.history + [Snapshot(id, t, c.userId, now)]);
      if !PatchRefsExist(s, body, IsAdmin(c)) then Reply(audited, Failure(StatusBadRequest, StoreRejectedMessage))
      else
        var t' := Patch(t, body, IsAdmin(c), now);
        Reply(audited.(tickets := s.tickets[id := t']), Success(StatusOk, UpdatedMessage, Row(id, t')))
  }

  /**
    The owner rule of an edit: someone who is not an administrator never changes a ticket's
    owner; an administrator's accepted edit sets the owner named in the body.
   */
  lemma EditOwnerRule(s: Store, env: Env, header: Option<string>, id: int, body: EditBody, now: int)
    requires Admit(s, env, header, id, Edit).Pass?
    ensures var out := EditTicket(s, env, header, id, body, now);
      var c := Admit(s, env, header, id, Edit).claims;
      && (!IsAdmin(c) ==> out.store.tickets[id].userId == s.tickets[id].userId)
      && (IsAdmin(c) && out.response.Success? && body.userId.Some? ==> out.store.tickets[id].userId == body.userId.value)
  {
  }

  /** An accepted edit writes the fields the body carries and keeps the ones it leaves out. */
  lemma EditWritesBodyFields(s: Store, env: Env, header: Option<string>, id: int, body: EditBody, now: int)
    requires EditTicket(s, env, header, id, body, now).response.Success?
    ensures var t := s.tickets[id];
      var t' := EditTicket(s, env, header, id, body, now).store.tickets[id];
      && (body.name.Some? ==> t'.name == body.name.value) && (body.name.None? ==> t'.name == t.name)
      && (body.description.Some? ==> t'.description == body.description.value)
      && (body.description.None? ==> t'.description == t.description)
      && (body.statusId.Some? ==> t'.statusId == body.statusId.value) && (body.statusId.None? ==> t'.statusId == t.statusId)
      && (body.userId.None? ==> t'.userId == t.userId)
      && t'.updatedAt == now
  {
  }

  /** `deleteTicket`: past the gate, a snapshot is appended to the history and the ticket is removed. */
  function DeleteTicket(s: Store, env: Env, header: Option<string>, id: int, now: int): (out: Reply<()>)
    ensures Admit(s, env, header, id, Delete).Halt? ==>
      out == Reply(s, Failure(Admit(s, env, header, id, Delete).code, Admit(s, env, header, id, Delete).error))
    ensures Admit(s, env, header, id, Delete).Pass? ==>
      && out.response == Success(StatusOk, DeletedMessage, ())
      && out.store.history == s.history + [Snapshot(id, s.tickets[id], Admit(s, env, header, id, Delete).claims.userId, now)]
      && out.store.tickets == s.tickets - {id}
    ensures OnlyTicketsAndHistory(s, out.store)
    ensures Valid(s) ==> Valid(out.store)
  {
    match Admit(s, env, header, id, Delete)
    case Halt(code, error) => Reply(s, Failure(code, error))
    case Pass(c, t) =>
      Reply(s.(history := s.history + [Snapshot(id, t, c.userId, now)], tickets := s.tickets - {id}),
            Success(StatusOk, DeletedMessage, ()))
  }

  /** A delete removes exactly its target and keeps every other ticket and every earlier history entry. */
  lemma DeleteRemovesOnlyTarget(s: Store, env: Env, header: Option<string>, id: int, now: int)
    requires DeleteTicket(s, env, header, id, now).response.Success?
    ensures var s' := DeleteTicket(s, env, header, id, now).store;
      && id in s.tickets && id !in s'.tickets
      && (forall k :: k != id ==> (k in s'.tickets <==> k in s.tickets))
      && (forall k :: k in s'.tickets ==> s'.tickets[k] == s.tickets[k])
      && |s'.tickets| == |s.tickets| - 1
      && s.history < s'.history
  {
  }
}

=== FILE: users.dfy ===
/**
  The user handlers: the administrators' user listing, sign-up and login. The validators, the
  password hash and its comparison, and token signing are abstract; a signed token is modelled
  by the claims it carries.
 */
module Users {
  import opened Basics
  import opened Http
  import opened Auth
  import opened Model

  const UsersListedMessage := "Users retrieved successfully"
  const AccessDeniedMessage := "Access denied."
  const ListingFailedMessage := "Failed to retrieve users"
  const InvalidEmailMessage := "Invalid Email"
  const PasswordPolicyMessage := "Password must be 6-16 characters long and contain at least one number and symbol"
  const SignedUpMessage := "Create successful"
  const UnknownEmailMessage := "User not found"
  const WrongPasswordMessage := "Invalid password"
  const LoggedInMessage := "Login successful"

  /** A user as the listing and sign-up return it: every column but the password, with the role's name. */
  datatype PublicUser = PublicUser(userId: int, name: string, email: string, roleId: int, roleName: string)

  /** `p` shows user `u` and the name of its role. */
  predicate Shows(s: Store, u: User, p: PublicUser) {
    && p.userId == u.id && p.name == u.name && p.email == u.email && p.roleId == u.roleId
    && u.roleId in s.roles && p.roleName == s.roles[u.roleId]
  }

  function Public(s: Store, u: User): (p: PublicUser)
    requires u.roleId in s.roles
    ensures Shows(s, u, p)
  {
    PublicUser(u.id, u.name, u.email, u.roleId, s.roles[u.roleId])
  }

  function PublicAll(s: Store, users: seq<User>): (ps: seq<PublicUser>)
    requires forall u :: u in users ==> u.roleId in s.roles
    ensures |ps| == |users|
    ensures forall i :: 0 <= i < |users| ==> Shows(s, users[i], ps[i])
  {
    if users == [] then [] else [Public(s, users[0])] + PublicAll(s, users[1..])
  }

  /**
    `getAllUsers`: bearer header (401), then the administrator role (403), before any lookup;
    a token the verifier refuses falls into the handler's catch-all (500).
   */
  function GetAllUsers(s: Store, env: Env, header: Option<string>): (r: Response<seq<PublicUser>>)
    requires Valid(s)
    ensures Authenticate(env, header).Missing? ==> r == Failure(StatusUnauthorized, NoTokenMessage)
    ensures Authenticate(env, header).Rejected? ==> r == Failure(StatusServerError, ListingFailedMessage)
    ensures Authenticate(env, header).Verified? && !IsAdmin(Authenticate(env, header).claims) ==>
      r == Failure(StatusForbidden, AccessDeniedMessage)
    ensures r.Success? <==> Authenticate(env, header).Verified? && IsAdmin(Authenticate(env, header).claims)
    ensures r.Success? ==>
      && r.code == StatusOk && r.message == UsersListedMessage
      && |r.data| == |s.users|
      && forall i :: 0 <= i < |s.users| ==> Shows(s, s.users[i], r.data[i])
  {
    match Authenticate(env, header)
    case Missing => Failure(StatusUnauthorized, NoTokenMessage)
    case Rejected(_) => Failure(StatusServerError, ListingFailedMessage)
    case Verified(c) =>
      if !IsAdmin(c) then Failure(StatusForbidden, AccessDeniedMessage)
      else
        assert forall u :: u in s.users ==> u.roleId in s.roles by {
          forall u | u in s.users ensures u.roleId in s.roles {
            var k :| 0 <= k < |s.users| && s.users[k] == u;
          }
        }
        Success(StatusOk, UsersListedMessage, PublicAll(s, s.users))
  }

  datatype SignUpForm = SignUpForm(name: string, email: string, password: string, roleId: int)

  /** What sign-up returns: the new user without its password, and the claims of the session cookie's token. */
  datatype SignedUp = SignedUp(user: PublicUser, session: Claims)

  /** Only the user table and its id counter differ between the two stores. */
  predicate OnlyUsers(s: Store, s': Store) {
    s' == s.(users := s'.users, nextUserId := s'.nextUserId)
  }

  /**
    `createUser`: the email is validated, then the password; the database then refuses a taken
    email or an unknown role; otherwise the user is stored with the hash of the password. The
    session token signs `{id, roleId}`, with no `userId` claim.
   */
  function CreateUser(s: Store, env: Env, form: SignUpForm): (out: Reply<SignedUp>)
    ensures !env.validEmail(form.email) ==> out == Reply(s, Failure(StatusBadRequest, InvalidEmailMessage))
    ensures env.validEmail(form.email) && !env.validPassword(form.password) ==>
      out == Reply(s, Failure(StatusBadRequest, PasswordPolicyMessage))
    ensures out.response.Success? <==>
      && env.validEmail(form.email) && env.validPassword(form.password)
      && (forall u :: u in s.users ==> u.email != form.email)
      && form.roleId in s.roles
    ensures out.response.Failure? ==> out.response.code == StatusBadRequest
    ensures env.validEmail(form.email) && env.validPassword(form.password) && out.response.Failure? ==>
      out.response.error == StoreRejectedMessage
    ensures out.response.Failure? ==> out.store == s
    ensures out.response.Success? ==>
      && OnlyUsers(s, out.store)
      && |out.store.users| == |s.users| + 1 && out.store.users[..|s.users|] == s.users
      && var u := out.store.users[|s.users|];
      && u.name == form.name && u.email == form.email && u.roleId == form.roleId
      && u.password == env.hash(form.password)
      && out.response.code == StatusCreated
      && Shows(s, u, out.response.data.user)
      && out.response.data.session == Claims(None, Some(u.id), None, Some(u.roleId))
    ensures Valid(s) && out.response.Success? ==> forall v :: v in s.users ==> v.id != out.response.data.user.userId
    ensures Valid(s) ==> Valid(out.store)
  {
    if !env.validEmail(form.email) then Reply(s, Failure(StatusBadRequest, InvalidEmailMessage))
    else if !env.validPassword(form.password) then Reply(s, Failure(StatusBadRequest, PasswordPolicyMessage))
    else if FindUserByEmail(s.users, form.email).Some? || form.roleId !in s.roles then
      Reply(s, Failure(StatusBadRequest, StoreRejectedMessage))
    else
      var u := User(s.nextUserId, form.name, form.email, env.hash(form.password), form.roleId);
      var s' := s.(users := s.users + [u], nextUserId := s.nextUserId + 1);
      assert Valid(s) ==> forall v :: v in s.users ==> v.id != u.id by {
        if Valid(s) {
          forall v | v in s.users ensures v.id != u.id {
            var k :| 0 <= k < |s.users| && s.users[k] == v;
          }
        }
      }
      Reply(s', Success(StatusCreated, SignedUpMessage, SignedUp(Public(s, u), Claims(None, Some(u.id), None, Some(u.roleId)))))
  }

  /** The email is checked first: an invalid email fails the same way whatever the password validator says. */
  lemma EmailCheckedBeforePassword(s: Store, env: Env, form: SignUpForm, passwordCheck: string -> bool)
    requires !env.validEmail(form.email)
    ensures CreateUser(s, env, form) == CreateUser(s, env.(validPassword := passwordCheck), form)
    ensures CreateUser(s, env, form).response.error == InvalidEmailMessage
  {
  }

  /** What a successful login returns; the token is represented by its claims. */
  datatype LoginData = LoginData(
    userId: int, userName: string, email: string, roleId: int, roleName: Option<string>, token: Claims)

  /** The claims a login token signs: the user's id, email and role. */
  function LoginClaims(u: User): Claims {
    Claims(Some(u.id), None, Some(u.email), Some(u.roleId))
  }

  function RoleName(s: Store, roleId: int): Option<string> {
    if roleId in s.roles then Some(s.roles[roleId]) else None
  }

  /** The login payload with the role's name read from the role's `name` column. */
  function LoginPayload(s: Store, u: User): (d: LoginData)
    ensures d.userId == u.id && d.userName == u.name && d.email == u.email && d.roleId == u.roleId
    ensures d.token == Claims(Some(u.id), None, Some(u.email), Some(u.roleId))
    ensures u.roleId in s.roles ==> d.roleName == Some(s.roles[u.roleId])
  {
    LoginData(u.id, u.name, u.email, u.roleId, RoleName(s, u.roleId), LoginClaims(u))
  }

  /**
    The login payload as the handler builds it: it reads `roleName` from the role record, whose
    column is `name`, so the value is undefined and the field is dropped from the response.
   */
  function LoginPayloadAsWritten(s: Store, u: User): (d: LoginData)
    ensures d == LoginPayload(s, u).(roleName := None)
  {
    LoginData(u.id, u.name, u.email, u.roleId, None, LoginClaims(u))
  }

  /**
    `loginUser`: an unknown email fails with "User not found", a password that does not match
    the stored hash with "Invalid password"; only a match yields a token.
   */
  function LoginUser(s: Store, env: Env, email: string, password: string): (r: Response<LoginData>)
    ensures (forall u :: u in s.users ==> u.email != email) ==> r == Failure(StatusBadRequest, UnknownEmailMessage)
    ensures r.Success? ==>
      && r.code == StatusOk && r.message == LoggedInMessage
      && exists u :: u in s.users && u.email == email && env.compare(password, u.password) && r.data == LoginPayload(s, u)
    ensures r.Failure? ==> r.code == StatusBadRequest
    ensures r.Failure? && r.error == WrongPasswordMessage ==>
      exists u :: u in s.users && u.email == email && !env.compare(password, u.password)
  {
    match FindUserByEmail(s.users, email)
    case None => Failure(StatusBadRequest, UnknownEmailMessage)
    case Some(u) =>
      if !env.compare(password, u.password) then Failure(StatusBadRequest, WrongPasswordMessage)
      else Success(StatusOk, LoggedInMessage, LoginPayload(s, u))
  }

  /**
    In a valid store, login with a user's email succeeds exactly when the password matches that
    user's stored hash, and the token then names that user, its email and its role.
   */
  lemma LoginAuthenticatesAccountHolder(s: Store, env: Env, k: int, password: string)
    requires Valid(s) && 0 <= k < |s.users|
    ensures var u := s.users[k];
      var r := LoginUser(s, env, u.email, password);
      && (r.Success? <==> env.compare(password, u.password))
      && (!env.compare(password, u.password) ==> r == Failure(StatusBadRequest, WrongPasswordMessage))
      && (r.Success? ==> r.data.token == LoginClaims(u) && r.data.token.userId == Some(u.id))
  {
    FindUserByEmailUnique(s, k);
  }

  /** The role name a successful login returns as written is always missing; corrected it is the role's name. */
  lemma LoginRoleNameLostAsWritten(s: Store, env: Env, k: int, password: string)
    requires Valid(s) && 0 <= k < |s.users|
    requires env.compare(password, s.users[k].password)
    ensures var u := s.users[k];
      && LoginUser(s, env, u.email, password).data.roleName == Some(s.roles[u.roleId])
      && LoginPayloadAsWritten(s, u).roleName.None?
  {
    FindUserByEmailUnique(s, k);
  }

  /**
    Sign-up followed by login with the same credentials succeeds, given a hash that the
    comparison accepts for its own password, and the login token names the new user.
   */
  lemma SignUpThenLogIn(s: Store, env: Env, form: SignUpForm)
    requires Valid(s)
    requires env.compare(form.password, env.hash(form.password))
    requires CreateUser(s, env, form).response.Success?
    ensures var out := CreateUser(s, env, form);
      var r := LoginUser(out.store, env, form.email, form.password);
      && r.Success?
      && r.data.token.userId == Some(out.response.data.user.userId)
      && r.data.token.roleId == Some(form.roleId)
  {
    var out := CreateUser(s, env, form);
    var k := |s.users|;
    assert out.store.users[k].email == form.email;
    FindUserByEmailUnique(out.store, k);
  }
}

=== FILE: workflow.dfy ===
/**
  The handlers composed into one state machine over the store: a request either only reads the
  store or is one of the four writing handlers. Properties of sequences of requests, and of
  pairs of handlers, live here.
 */
module Workflow {
  import opened Basics
  import opened Http
  import opened Auth
  import opened Model
  import opened Listing
  import opened Tickets
  import opened Users

  datatype Request =
    | ListAllTickets
    | ListMyTickets(header: Option<string>)
    | NewTicket(input: TicketInput, now: int)
    | ChangeTicket(header: Option<string>, id: int, body: EditBody, now: int)
    | RemoveTicket(header: Option<string>, id: int, now: int)
    | ListUsers(header: Option<string>)
    | SignUp(form: SignUpForm)
    | LogIn(email: string, password: string)

  /** The store after one request. Listings and login only read. */
  function Step(s: Store, env: Env, req: Request): (s': Store)
    ensures req.ListAllTickets? || req.ListMyTickets? || req.ListUsers? || req.LogIn? ==> s' == s
    ensures Valid(s) ==> Valid(s')
    ensures s.history <= s'.history && |s'.history| <= |s.history| + 1
  {
    match req
    case NewTicket(input, now) => CreateTicket(s, input, now).store
    case ChangeTicket(header, id, body, now) => EditTicket(s, env, header, id, body, now).store
    case RemoveTicket(header, id, now) => DeleteTicket(s, env, header, id, now).store
    case SignUp(form) => CreateUser(s, env, form).store
    case ListAllTickets => s
    case ListMyTickets(_) => s
    case ListUsers(_) => s
    case LogIn(_, _) => s
  }

  /**
    The store after a sequence of requests: integrity is kept, the history only grows at its
    end, and by at most one entry per request.
   */
  function Run(s: Store, env: Env, reqs: seq<Request>): (s': Store)
    decreases |reqs|
    ensures Valid(s) ==> Valid(s')
    ensures s.history <= s'.history
    ensures |s'.history| <= |s.history| + |reqs|
  {
    if reqs == [] then s else Run(Step(s, env, reqs[0]), env, reqs[1..])
  }

  /**
    No ticket that exists before a request is changed or removed by it unless exactly one
    history entry, a snapshot of that ticket as it was, is appended.
   */
  lemma AuditPrecedesChange(s: Store, env: Env, req: Request, id: int)
    requires Valid(s) && id in s.tickets
    requires id !in Step(s, env, req).tickets || Step(s, env, req).tickets[id] != s.tickets[id]
    ensures var s' := Step(s, env, req);
      && |s'.history| == |s.history| + 1
      && var e := s'.history[|s.history|];
      && e.ticketId == id && e.name == s.tickets[id].name
      && e.description == s.tickets[id].description && e.statusId == s.tickets[id].statusId
  {
    match req
    case NewTicket(input, now) =>
    case ChangeTicket(header, target, body, now) =>
      assert Admit(s, env, header, target, Edit).Pass? && target == id;
    case RemoveTicket(header, target, now) =>
      assert Admit(s, env, header, target, Delete).Pass? && target == id;
    case SignUp(form) =>
    case ListAllTickets =>
    case ListMyTickets(_) =>
    case ListUsers(_) =>
    case LogIn(_, _) =>
  }

  /**
    A ticket created for a user is listed, with the requested contents, to a requester whose
    token names that user.
   */
  lemma CreatedTicketListedForOwner(s: Store, env: Env, input: TicketInput, now: int, token: string)
    requires Valid(s)
    requires CreateTicket(s, input, now).response.Success?
    requires ' ' !in token
    requires env.verify(token).Ok? && env.verify(token).value.userId == Some(input.userId)
    ensures var out := CreateTicket(s, input, now);
      var r := GetTicketByUser(out.store, env, Some(BearerPrefix + token));
      && r.Success?
      && out.response.data.id in TicketIds(r.data)
      && forall v :: v in r.data && v.ticketId == out.response.data.id ==>
           v.name == input.name && v.description == input.description
           && v.statusId == input.statusId && v.userId == input.userId
  {
    TokenRoundTrip(token);
    var out := CreateTicket(s, input, now);
    var c := env.verify(token).value;
    assert Authenticate(env, Some(BearerPrefix + token)) == Verified(c);
    var id := out.response.data.id;
    assert id in out.store.tickets && MayAct(c, out.store.tickets[id].userId);
  }

  /**
    The token set at sign-up carries `id` where the ticket handlers read `userId`: a holder who
    is not an administrator is refused every edit and delete, even of their own tickets.
   */
  lemma SignUpTokenRefusedByTicketGate(s: Store, env: Env, form: SignUpForm, t: Store,
                                       header: Option<string>, id: int, op: Op)
    requires CreateUser(s, env, form).response.Success?
    requires form.roleId != AdminRole
    requires Authenticate(env, header) == Verified(CreateUser(s, env, form).response.data.session)
    requires id in t.tickets
    ensures Admit(t, env, header, id, op) == Halt(StatusForbidden, ForbiddenMessage(op))
  {
    var c := CreateUser(s, env, form).response.data.session;
    NoUserIdNoOwnership(c, t.tickets[id].userId);
  }

  /** With the corrected owner filter, the same sign-up token lists no ticket at all. */
  lemma SignUpTokenListsNothing(s: Store, env: Env, form: SignUpForm, t: Store, header: Option<string>)
    requires Valid(t)
    requires CreateUser(s, env, form).response.Success?
    requires form.roleId != AdminRole
    requires Authenticate(env, header) == Verified(CreateUser(s, env, form).response.data.session)
    ensures GetTicketByUser(t, env, header) == Success(StatusOk, NoDataMessage, [])
  {
    var c := CreateUser(s, env, form).response.data.session;
    var r := GetTicketByUser(t, env, header);
    if r.data != [] {
      assert r.data[0] in r.data;
      NoUserIdNoOwnership(c, r.data[0].userId);
    }
  }
}
